=== FILE: README.md ===
# stablogen core, modelled in Dafny

stablogen is a static blog generator. This project models its pure logic:

- **Page** (`stablogen/Page.py`): a list cut into pages of a fixed size, with an
  immutable cursor. `get_next`/`get_prev` build a sibling through the context
  constructor, which raises `IndexError` for an index outside the page range.
  `__next__` turns that error into the end of iteration.
- **util** (`stablogen/util.py`): `make_url` slugs, `to_list` comma lists,
  `is_empty` on sequences, and `if_none_else_do`.
- **Post and Tag** (`stablogen/Post.py`): the tag inventory built by
  `apply_tags`/`add_post`, the listings `get_finalized` and `get_most_tagged`, and
  the layout of a post file: metadata header, blank line, body.

Modules:

- `Wrappers`: `Option`, `Result`, and the exceptions `IndexError`, `ValueError`, `TypeError`.
- `Numerals`: `str()` of an integer, with a reader.
- `Util`: util.py, plus `str.split`/`str.join` with a one-character separator, and `str.strip()`.
- `Sequences`: `filter` and the stable `sorted(..., reverse=True)`.
- `Dicts`: a Python `dict` with string keys that keeps insertion order.
- `Paging`: Page.py.
- `Posts`: Post.py.

The class-level inventories `Post.inventory` and `Tag.inventory` are passed in
and returned as values. Timestamps (`arrow` objects) are integers, because only
their order matters. A tag lists its posts by url, which is the key of the post
inventory.

`Page` does not check the page size itself; the outcome comes from `is_empty` and `islice`:

- An empty list still gives one empty page, whatever the size.
- A non-empty list with size 0 gives no pages at all, so the length is 0.
- A negative size, or one above `sys.maxsize`, makes `islice` raise `ValueError`. The model takes `sys.maxsize` as 2^63 - 1, its value on 64-bit CPython.

`Paging.FromItems` states all three cases. For iterating over a page, see
"## Findings".

## Model

| member | source | states |
|---|---|---|
| Paging.Paginate | stablogen/Page.py:73-83 | For size >= 1, the pages concatenate back to the input. Every page has 1..size items, and all but the last have exactly size, so there is no trailing empty page. No pages exactly when the input is empty or the size is 0. |
| Paging.PaginateCount | stablogen/Page.py:73-83 | The number of pages is the item count divided by the size, rounded up. |
| Paging.PaginateUnique | stablogen/Page.py:73-83 | Any cut of the input into pages of this shape equals the paginate result, so the shape determines the chunking. |
| Paging.PaginateLoop | stablogen/Page.py:77-83 | The generator loop (take `size` items, stop at the first empty take) produces exactly the pages of the recursive definition. |
| Paging.FromItems | stablogen/Page.py:11-23 | An empty list gives `[[]]` with length 1, whatever the size. A non-empty list raises ValueError exactly when `islice` refuses the size: negative, or above `sys.maxsize`. Otherwise a size from 1 up gives pages that concatenate back to the list with the page-size shape, and size 0 gives no pages. The cursor starts at 0, length is the page count, and per_page is the size. |
| Paging.FromContext | stablogen/Page.py:24-31 | Raises IndexError exactly when index < 0 or index >= length; otherwise copies the four context fields. |
| Paging.Init | stablogen/Page.py:10-34 | (items, size) without context paginates; (None, None, context) uses the context; every other mix raises ValueError. |
| Paging.PageNo | stablogen/Page.py:36-37 | The page number is one more than the index, and lies in 1..length on a wellformed page. |
| Paging.HasNext | stablogen/Page.py:47-48 | On a wellformed page, true exactly when the next index is again a valid page. GetNext succeeds exactly when it is true. |
| Paging.HasPrev | stablogen/Page.py:61-62 | On a wellformed page, true exactly when the previous index is again a valid page. GetPrev succeeds exactly when it is true. |
| Paging.GetItems | stablogen/Page.py:39-42 | Returns the page at the given index, or at the cursor when none is given. Python list indexing applies: negative indices count from the end, other out-of-range indices raise IndexError. Never fails at the cursor of a wellformed page. |
| Paging.GetNext | stablogen/Page.py:44-56 | Fails with IndexError exactly when has_next is false. Otherwise returns the same page with index + 1 and everything else unchanged, and keeps wellformedness. |
| Paging.GetPrev | stablogen/Page.py:58-70 | Fails with IndexError exactly when has_prev is false. Otherwise returns the same page with index - 1, and keeps wellformedness. |
| Paging.NextThenPrev | stablogen/Page.py:50-70 | get_next then get_prev returns the original page. |
| Paging.PrevThenNext | stablogen/Page.py:50-70 | get_prev then get_next returns the original page. |
| Paging.IterNext | stablogen/Page.py:92-96 | Gives the next sibling, or the end of iteration exactly when get_next raises. |
| Paging.Remaining | stablogen/Page.py:86-96 | Following `__next__` from sibling to sibling yields the pages with index + 1, index + 2, … in order, and stops after the last page. |
| Paging.RemainingPages | stablogen/Page.py:86-96 | From a wellformed page, the siblings visited are wellformed, and their items are exactly the later pages, in order. |
| Paging.ForLoopAsWritten | stablogen/Page.py:86-96 | A `for` loop over a page repeats the same next sibling at every step, because `__iter__` returns the page and `__next__` never advances it. |
| Paging.ForLoopNeverEnds | stablogen/Page.py:86-96 | On a page with a next page, the loop yields n values for every n, all with index + 1. The sibling walk is finite. |
| Paging.ForLoopExample | stablogen/Page.py:86-96 | On 1..9 by 4, three loop steps give page 2 three times, where the later pages are only pages 2 and 3. |
| Paging.Str | stablogen/Page.py:99-100 | The text starts with "Page ". StrReadBack states that it reads back to the page number and the page count. |
| Paging.StrReadBack | stablogen/Page.py:99-100 | The text "Page n of m" starts with "Page " and reads back to the page number and the page count. |
| Numerals.ParseIntDecimal | stablogen/Page.py:100 | Reading the decimal text of any integer gives the integer back. |
| Numerals.ParseNatDecimal | stablogen/Page.py:100 | Reading the digits of a natural number gives the number back. |
| Paging.NinePagesExample | stablogen/test_Page.py:6-35 | 1..9 by 4 gives [[1,2,3,4],[5,6,7,8],[9]]. Every assertion of the test holds: has_prev, has_next, page number and items of p1, p2 and p3; IndexError before the first and after the last page; and p3.get_prev() is p2 again. |
| Paging.EmptyExample | stablogen/test_Page.py:37-43 | An empty list gives one empty page, with page number 1 and neither next nor prev. |
| Util.IfNoneElseDo | stablogen/util.py:26-28 | None stays None; a present value v becomes f(v). |
| Util.IfNoneElseDoIdentity | stablogen/util.py:26-28 | Mapping the identity returns the input. |
| Util.IfNoneElseDoCompose | stablogen/util.py:26-28 | Mapping f then g is mapping their composition once. |
| Util.MakeUrl | stablogen/util.py:30-34 | A given url is returned unchanged. Without one, the result has the title's length, no space and no upper-case letter. Each character is the title's, lower-cased, with a space turned into `_`. |
| Util.MakeUrlIdempotent | stablogen/util.py:30-32 | A slug is its own slug. |
| Util.MakeUrlFixedPoint | stablogen/util.py:30-32 | A title is its own slug exactly when it has no space and no upper-case letter. |
| Util.Split | stablogen/util.py:37 | Split returns one more piece than there are separators, and no piece contains the separator. |
| Util.Join | stablogen/Post.py:76 | The first part starts the joined text. Its meaning as the inverse of split is stated by SplitJoin and JoinSplit. |
| Util.SplitJoin | stablogen/util.py:37 | Joining the pieces of a split gives the string back. |
| Util.JoinSplit | stablogen/util.py:37 | Splitting a join of separator-free pieces gives the pieces back. |
| Util.SplitConcat | stablogen/Post.py:75 | Splitting at a separator splits the two sides independently. |
| Util.Strip | stablogen/util.py:37 | Stripping keeps no whitespace at either end. The result is empty exactly when the input is all whitespace. |
| Util.StripSplit | stablogen/util.py:37 | The input is whitespace, then the stripped result, then whitespace. |
| Util.StripPadded | stablogen/util.py:37 | Whitespace around a word without edge whitespace is exactly what strip removes. |
| Util.StripIdempotent | stablogen/util.py:37 | Stripping twice equals stripping once. |
| Util.ToList | stablogen/util.py:36-37 | The result has one more item than the input has commas, so it is never empty. No item contains a comma or has whitespace at an end. |
| Util.ToListEmpty | stablogen/util.py:36-37 | The empty string gives `[""]`. |
| Util.ToListJoin | stablogen/util.py:36-37 | Comma-joined items come back as the same number of items, each stripped. |
| Util.IsEmpty | stablogen/util.py:52-53 | On a sequence, true exactly when the sequence is empty. |
| Sequences.Filter | stablogen/Post.py:119-120 | The result holds exactly the kept members of the input. |
| Sequences.FilterMultiset | stablogen/Post.py:119-120 | Every occurrence of a kept item survives, and no dropped item does. |
| Sequences.SortDesc | stablogen/Post.py:119-123 | The result is a permutation of the input, with keys non-increasing. |
| Sequences.InsertSorted | stablogen/Post.py:119-123 | Inserting into a sorted sequence keeps it sorted. |
| Sequences.SortDescStable | stablogen/Post.py:119-123 | The sort is stable: items with equal keys keep their input order, even with reverse=True. |
| Sequences.SortDescEqualKeys | stablogen/Post.py:119-123 | When every key is equal, the sort returns its input unchanged. |
| Dicts.Set | stablogen/Post.py:61 | `d[k] = v` updates the map. An existing key keeps its place, a new key goes last, and the dictionary stays valid. |
| Dicts.Values | stablogen/Post.py:148 | `values()` lists one value per key, in key insertion order. |
| Dicts.ValuesMembers | stablogen/Post.py:148 | The listed values are exactly the map's values. |
| Posts.NewTag | stablogen/Post.py:135-138 | A new tag keeps its name and posts. Its url is the slug of its name: same length, no spaces. |
| Posts.AddPost | stablogen/Post.py:140-142 | Afterwards the post is listed. An already listed post leaves the tag unchanged; otherwise the post is appended at the end. Name and url are kept, and a duplicate-free list stays duplicate-free. |
| Posts.AddPostIdempotent | stablogen/Post.py:140-142 | Adding a post twice is adding it once. |
| Posts.NewPost | stablogen/Post.py:34-45 | The url is the given one; without one it is the slug of the title: same length, no spaces. Every other field is stored as given. |
| Posts.ApplyTag | stablogen/Post.py:57-61 | One loop step: a known tag gets add_post; an unknown tag becomes a new tag holding only this post; no other tag changes. |
| Posts.ApplyTagList | stablogen/Post.py:56-61 | The inventory gains exactly the post's tag names. Earlier keys keep their order, and validity is kept. |
| Posts.ApplyTagListEntry | stablogen/Post.py:56-61 | Per tag name, a repeated tag name included: the post is listed under each of its tags. A new tag is exactly [post] and a known one gets add_post. Other tags are untouched. |
| Posts.ApplyTags | stablogen/Post.py:56-61 | Every tag of the post lists the post. A new tag is exactly a tag of [post] with the slug url, a known tag gets add_post, and tags not on the post are untouched. |
| Posts.ApplyTagsIdempotent | stablogen/Post.py:56-61 | Applying a post's tags twice leaves the same entries as applying them once. |
| Posts.GetFinalized | stablogen/Post.py:113-123 | final=True gives exactly the inventory posts that have `when` set, each as often as in the inventory, newest first. final=False gives exactly the drafts. |
| Posts.GetFinalizedStable | stablogen/Post.py:119-123 | Finalized posts with equal timestamps keep their inventory order. |
| Posts.DraftsInOrder | stablogen/Post.py:117-123 | The corrected drafts listing is exactly the stable descending sort of the filtered inventory values with every draft's key taken as equal, which is the drafts in inventory order. It holds every draft as often as the inventory does, and no other post. |
| Posts.GetFinalizedAsWritten | stablogen/Post.py:113-123 | final=True agrees with GetFinalized. final=False raises TypeError exactly when there are two or more drafts. With fewer drafts it returns them, as the corrected listing does. |
| Posts.TwoDraftsRaise | stablogen/Post.py:117-123 | Two drafts make the as-written listing raise TypeError, where the corrected one lists both. |
| Posts.GetMostTagged | stablogen/Post.py:144-151 | All tags, as a permutation of the inventory, with post counts non-increasing. |
| Posts.GetMostTaggedStable | stablogen/Post.py:147-151 | Tags on equally many posts keep their inventory order. |
| Posts.Frame | stablogen/Post.py:108-110 | The saved text is the header, one newline, then the body. |
| Posts.LeadingFilled | stablogen/Post.py:76 | takewhile(str.strip) keeps the longest run of leading non-blank lines. The line after the run, if any, is blank. |
| Posts.IsBlankStrip | stablogen/Post.py:76 | The `takewhile` test `str.strip(line)` is falsy exactly on whitespace-only lines, which the model calls blank. |
| Posts.Unframe | stablogen/Post.py:75-80 | The loaded header is empty or has no blank line. UnframeFrame states that it undoes save's framing. |
| Posts.HeaderFilled | stablogen/Post.py:75-76 | The lines `takewhile` keeps join to a header that splits back into them, and none of them is blank. |
| Posts.FramedLines | stablogen/Post.py:109 | A saved file's lines are the header's lines, one empty line, then the body's lines. |
| Posts.UnframeFrame | stablogen/Post.py:75-80 | Splitting the framed text gets back the header and the exact body text that save framed. The header ends in a newline and has no whitespace-only line. The file's newline translation is under Left out. |
| Posts.UnframeBlankBody | stablogen/Post.py:80 | The body "\n\nbody", which starts with blank lines, is recovered exactly: takewhile consumes only the single separating blank line. |

## Left out

- `is_empty` on iterators (stablogen/util.py:46-51): it consumes the first item of a one-shot iterator, so `Page` would then lose that item. Only sequences are modelled, so `Page` and `paginate` take a list.
- The `TypeError` of `is_empty` for objects without `__iter__`: the types rule it out.
- The laziness of `paginate` (`itertools.tee`/`islice` over a possibly one-shot source): the pages are a value, because the constructor builds the list eagerly anyway.
- `Page.next`/`Page.prev`: they are only `index ± 1`, and are written inline in `GetNext`/`GetPrev`.
- `__getitem__` with an integer key is `GetItems` with that index. A slice key returns a list of pages; slices are not modelled.
- `__repr__` and `print` only wrap `__str__`.
- Paging.FromItems: fixes `sys.maxsize` at its 64-bit CPython value, 2^63 - 1. On a 32-bit build the bound `islice` enforces is 2^31 - 1.
- A context dictionary with a missing key (`KeyError`): the context is a record with all four fields.
- Util.MakeUrl: lower-cases ASCII letters only. Python's `str.lower` is Unicode-wide and can change the length (for example 'İ'), so the length and idempotence facts are for this ASCII model.
- Posts.AddPost: compares post urls. The source compares `Post` objects by identity, which differs only when two post objects share a url.
- `Post.create`, `finalize` and `edit`: they read the clock (`arrow.utcnow`). `Post.__init__` is `Posts.NewPost`. Elsewhere in the model a post's url is taken as given, not recomputed from its title.
- `Post.__str__` and `Post.date`: they rely on `arrow` humanizing and formatting.
- The YAML encoding and decoding of the header: the header is an opaque string.
- `Post.load`'s file check and `Post.save`'s directory creation: these are I/O. Only the text layout is modelled (`Frame`/`Unframe`).
- Posts.UnframeFrame: the round trip is on the text as written. `read_text()` reads in universal-newline mode and turns `'\r\n'` and `'\r'` into `'\n'`, so in Python the body comes back exactly only when it has no `'\r'`.
- `Post.load_all`: it walks directories and fills the inventories once. Here the inventories are values passed to `ApplyTags`, `GetFinalized` and `GetMostTagged`.
- The `posts=[]` default argument of `Tag.__init__` is one list shared by every call. `apply_tags` always passes a fresh list, so the shared default is never reached here.
- `editor` and `temp_editor` in util.py: process glue that runs an external editor.
- `has_method` in util.py: the `hasattr`/`callable` test `is_empty` uses. The model types the input as a sequence, so the type decides this test. `find_files`, imported by Post.py from util.py, is not part of this model.
- `stablogen/generate.py`, `stablogen/commands.py` and `stablogen/code.py`: rendering, CLI and template-engine glue.
- `blog.py` and `stablogen.py`: older copies of the same logic tied to globals, files and argparse.
- Configuration and packaging files.

## Findings

| source | as written | input that shows it | evidently intended | confidence | as-written member | corrected member |
|---|---|---|---|---|---|---|
| stablogen/Page.py:86-96 | `__iter__` returns the page itself, and `__next__` returns `get_next()` without moving the page, so a `for` loop asks the same page for its next sibling forever | `for q in Page([1..9], 4)` yields page 2, page 2, page 2, … and never stops | iteration yields pages 2 and 3 and then stops | high; not executed | Paging.ForLoopAsWritten | Paging.Remaining |
| stablogen/Post.py:117-123 | the drafts branch of `get_finalized` sorts on `when`, which is `None` for every draft, and comparing two `None` keys raises `TypeError` | an inventory holding two drafts, `get_finalized(dir, final=False)` | the drafts are listed, in inventory order (what a stable sort on equal keys gives) | medium; not executed | Posts.GetFinalizedAsWritten | Posts.GetFinalized |

=== FILE: dicts.dfy ===
/** Python's `dict` with string keys: a map plus the order in which keys were
    first inserted, which is the order `dict.values()` reports. */
module Dicts {

  datatype Dict<V> = Dict(keys: seq<string>, entries: map<string, V>)

  /** No item occurs twice. */
  predicate Distinct<T(==)>(s: seq<T>) {
    forall i, j :: 0 <= i < j < |s| ==> s[i] != s[j]
  }

  /** Each key is listed once, and exactly the keys of the map are listed. */
  predicate Valid<V>(d: Dict<V>) {
    && Distinct(d.keys)
    && d.entries.Keys == set k | k in d.keys
  }

  function Empty<V>(): (d: Dict<V>)
    ensures Valid(d) && d.entries == map[]
  {
    Dict([], map[])
  }

  /** `d[k] = v`: an existing key keeps its place, a new key goes last. */
  function Set<V>(d: Dict<V>, k: string, v: V): (r: Dict<V>)
    ensures r.entries == d.entries[k := v]
    ensures k in d.entries ==> r.keys == d.keys
    ensures k !in d.entries ==> r.keys == d.keys + [k]
    ensures Valid(d) ==> Valid(r)
  {
    if k in d.entries then d.(entries := d.entries[k := v])
    else Dict(d.keys + [k], d.entries[k := v])
  }

  /** `list(d.values())`: the values in key insertion order. */
  function Values<V>(d: Dict<V>): (r: seq<V>)
    requires Valid(d)
    ensures |r| == |d.keys| == |d.entries|
    ensures forall i :: 0 <= i < |r| ==> r[i] == d.entries[d.keys[i]]
    ensures forall k :: k in d.entries ==> d.entries[k] in r
  {
    DistinctKeysCount(d);
    seq(|d.keys|, i requires 0 <= i < |d.keys| => d.entries[d.keys[i]])
  }

  /** The values listed are exactly the values of the map. */
  lemma ValuesMembers<V>(d: Dict<V>)
    requires Valid(d)
    ensures forall v :: v in Values(d) <==> v in d.entries.Values
  {
    var r := Values(d);
    forall v | v in r
      ensures v in d.entries.Values
    {
      var i :| 0 <= i < |r| && r[i] == v;
      assert d.keys[i] in d.entries;
    }
  }

  /** A dictionary filled with two different keys lists both values, in order. */
  lemma TwoEntries<V>(k1: string, v1: V, k2: string, v2: V)
    requires k1 != k2
    ensures Valid(Set(Set(Empty(), k1, v1), k2, v2))
    ensures Values(Set(Set(Empty(), k1, v1), k2, v2)) == [v1, v2]
  {
    var d := Set(Set(Empty(), k1, v1), k2, v2);
    assert d.keys == [k1, k2];
  }

  lemma DistinctKeysCount<V>(d: Dict<V>)
    requires Valid(d)
    ensures |d.keys| == |d.entries|
  {
    DistinctCard(d.keys);
    assert d.entries.Keys == set k | k in d.keys;
  }

  lemma {:induction false} DistinctCard(s: seq<string>)
    requires Distinct(s)
    ensures |set k | k in s| == |s|
    decreases |s|
  {
    if |s| > 0 {
      var last := s[|s| - 1];
      var init := s[..|s| - 1];
      DistinctCard(init);
      assert (set k | k in s) == (set k | k in init) + {last};
      assert last !in init;
    }
  }
}

=== FILE: numerals.dfy ===
/** Decimal rendering of integers, as Python's `str.format` writes an `int`,
    together with a reader used to state that the rendering loses nothing. */
module Numerals {
  import opened Wrappers

  predicate IsDigit(c: char) {
    '0' <= c <= '9'
  }

  function DigitChar(d: nat): (c: char)
    requires d < 10
    ensures IsDigit(c)
  {
    (d + '0' as int) as char
  }

  function DigitValue(c: char): (d: Option<nat>)
    ensures d.Some? <==> IsDigit(c)
    ensures d.Some? ==> d.value < 10 && DigitChar(d.value) == c
  {
    if IsDigit(c) then Some(c as int - '0' as int) else None
  }

  /** The decimal digits of `n`, most significant first, without leading zeros. */
  function NatDecimal(n: nat): (s: string)
    ensures |s| >= 1
    ensures forall i :: 0 <= i < |s| ==> IsDigit(s[i])
    ensures |s| > 1 ==> s[0] != '0'
    decreases n
  {
    if n < 10 then [DigitChar(n)] else NatDecimal(n / 10) + [DigitChar(n % 10)]
  }

  /** `str(i)` for a Python `int`: a minus sign before the digits of a negative number. */
  function IntDecimal(i: int): (s: string)
    ensures |s| >= 1
    ensures forall k :: 0 <= k < |s| ==> IsDigit(s[k]) || s[k] == '-'
  {
    if i < 0 then "-" + NatDecimal(-i) else NatDecimal(i)
  }

  /** Reads a non-empty run of decimal digits; anything else is `None`. */
  function ParseNat(s: string): (r: Option<nat>)
    ensures r.Some? ==> |s| >= 1
    decreases |s|
  {
    if |s| == 0 then None
    else
      var d := DigitValue(s[|s| - 1]);
      if d.None? then None
      else if |s| == 1 then Some(d.value)
      else
        var p := ParseNat(s[..|s| - 1]);
        if p.None? then None else Some(p.value * 10 + d.value)
  }

  /** Reads an optional minus sign followed by decimal digits. */
  function ParseInt(s: string): Option<int> {
    if |s| > 0 && s[0] == '-' then
      match ParseNat(s[1..])
      case Some(n) => Some(0 - n as int)
      case None => None
    else
      match ParseNat(s)
      case Some(n) => Some(n as int)
      case None => None
  }

  /** Reading back the digits of `n` gives `n`. */
  lemma {:induction false} ParseNatDecimal(n: nat)
    ensures ParseNat(NatDecimal(n)) == Some(n)
    decreases n
  {
    if n >= 10 {
      var s := NatDecimal(n);
      ParseNatDecimal(n / 10);
      assert s[..|s| - 1] == NatDecimal(n / 10);
      assert DigitValue(s[|s| - 1]) == Some(n % 10);
    }
  }

  /** Reading back `str(i)` gives `i`, for every integer. */
  lemma ParseIntDecimal(i: int)
    ensures ParseInt(IntDecimal(i)) == Some(i)
  {
    if i < 0 {
      ParseNatDecimal(-i);
      assert IntDecimal(i)[1..] == NatDecimal(-i);
    } else {
      ParseNatDecimal(i);
    }
  }
}

=== FILE: paging.dfy ===
/** stablogen/Page.py: a list split into pages of a fixed size, viewed through an
    immutable cursor that builds a sibling for the next or previous page. */
module Paging {
  import opened Wrappers
  import opened Numerals
  import opened Util

  /** A `Page` object: all pages, the current position, the page count it was
      given and the page size. */
  datatype Page<T> = Page(pages: seq<seq<T>>, index: int, length: int, perPage: int)

  /** The `context` dictionary handed to the second way of constructing a `Page`. */
  datatype Context<T> = Context(pages: seq<seq<T>>, index: int, length: int, perPage: int)

  /** The items of all pages, in order. */
  function Flatten<T>(pages: seq<seq<T>>): seq<T>
    decreases |pages|
  {
    if |pages| == 0 then [] else pages[0] + Flatten(pages[1..])
  }

  /** Every page holds between 1 and `size` items, and all but the last hold exactly `size`. */
  predicate IsPaging<T>(pages: seq<seq<T>>, size: int) {
    && (forall i :: 0 <= i < |pages| ==> 0 < |pages[i]| <= size)
    && (forall i :: 0 <= i < |pages| - 1 ==> |pages[i]| == size)
  }

  /** The cursor points at a page that exists and the page count is the real one. */
  predicate Wellformed<T>(p: Page<T>) {
    0 <= p.index < p.length == |p.pages|
  }

  // ---------------------------------------------------------------------------
  // paginate

  /** `Page.paginate(items, size)`: repeatedly take the next `size` items as a
      page, and stop at the first empty take. A size of 0 stops at once. */
  function Paginate<T>(items: seq<T>, size: nat): (pages: seq<seq<T>>)
    ensures size >= 1 ==> Flatten(pages) == items
    ensures IsPaging(pages, size)
    ensures pages == [] <==> items == [] || size == 0
    decreases |items|
  {
    var k := if size < |items| then size else |items|;
    if k == 0 then []
    else
      var rest := Paginate(items[k..], size);
      assert items == items[..k] + items[k..];
      assert rest != [] ==> k == size;
      [items[..k]] + rest
  }

  /** The number of pages is the item count divided by the size, rounded up. */
  lemma {:induction false} PaginateCount<T>(items: seq<T>, size: nat)
    requires size >= 1
    ensures |Paginate(items, size)| == (|items| + size - 1) / size
    decreases |items|
  {
    if |items| > size {
      PaginateCount(items[size..], size);
      DivStep(|items| - size + size - 1, size);
    } else if |items| > 0 {
      DivOne(|items| + size - 1, size);
    }
  }

  lemma DivStep(a: int, b: int)
    requires a >= 0 && b > 0
    ensures (a + b) / b == a / b + 1
  {
    var q, r := a / b, a % b;
    assert a + b == (q + 1) * b + r;
    DivUnique(a + b, b, q + 1, r);
  }

  lemma DivOne(a: int, b: int)
    requires b > 0 && b <= a < 2 * b
    ensures a / b == 1
  {
    DivUnique(a, b, 1, a - b);
  }

  lemma DivUnique(a: int, b: int, q: int, r: int)
    requires b > 0 && 0 <= r < b && a == q * b + r
    ensures a / b == q
  {
    var q', r' := a / b, a % b;
    assert q * b + r == q' * b + r';
    if q > q' {
      MulAtLeast(q - q', b);
    } else if q < q' {
      MulAtLeast(q' - q, b);
    }
  }

  lemma {:induction false} MulAtLeast(x: nat, b: nat)
    requires x >= 1
    ensures x * b >= b
    decreases x
  {
    if x > 1 {
      MulAtLeast(x - 1, b);
      assert x * b == (x - 1) * b + b;
    }
  }

  /** Paginating is the only way to cut `items` into pages of this shape: any
      sequence of pages that concatenates to `items` and has the page sizes
      `IsPaging` demands is the result of `Paginate`. */
  lemma {:induction false} PaginateUnique<T>(items: seq<T>, size: nat, pages: seq<seq<T>>)
    requires size >= 1
    requires Flatten(pages) == items
    requires IsPaging(pages, size)
    ensures pages == Paginate(items, size)
    decreases |pages|
  {
    if |pages| > 0 {
      var first := pages[0];
      var rest := pages[1..];
      assert items == first + Flatten(rest);
      assert IsPaging(rest, size);
      if |rest| == 0 {
        assert items == first;
        assert items[|items|..] == [];
      } else {
        assert |first| == size;
        assert |Flatten(rest)| > 0 by { assert |rest[0]| > 0; assert Flatten(rest) == rest[0] + Flatten(rest[1..]); }
        assert items[..size] == first;
        assert items[size..] == Flatten(rest);
        PaginateUnique(items[size..], size, rest);
      }
    }
  }

  /** The generator loop of `Page.paginate`, one page per iteration. */
  method PaginateLoop<T>(items: seq<T>, size: nat) returns (pages: seq<seq<T>>)
    ensures pages == Paginate(items, size)
  {
    pages := [];
    var rest := items;
    while true
      invariant pages + Paginate(rest, size) == Paginate(items, size)
      decreases |rest|
    {
      var k := if size < |rest| then size else |rest|;
      var page := rest[..k];
      PaginateStep(rest, size, k);
      if |page| == 0 {
        break;
      }
      AppendAssoc(pages, page, Paginate(rest[k..], size));
      pages := pages + [page];
      rest := rest[k..];
    }
  }

  /** One iteration of the generator: the next page is the next `k` items. */
  lemma PaginateStep<T>(items: seq<T>, size: nat, k: nat)
    requires k == if size < |items| then size else |items|
    ensures k == 0 ==> Paginate(items, size) == []
    ensures k > 0 ==> Paginate(items, size) == [items[..k]] + Paginate(items[k..], size)
  {
  }

  lemma AppendAssoc<T>(pages: seq<seq<T>>, page: seq<T>, more: seq<seq<T>>)
    ensures pages + ([page] + more) == (pages + [page]) + more
  {
  }

  // ---------------------------------------------------------------------------
  // __init__

  /** `sys.maxsize` of a 64-bit CPython: the largest start or stop `islice` accepts. */
  const MaxSize: int := 0x7FFF_FFFF_FFFF_FFFF

  /** `Page(items, size)`: an empty list gives one empty page whatever the size;
      otherwise the pages of `Paginate`, where a size that `islice` refuses as a
      bound (negative, or above `sys.maxsize`) raises `ValueError`. The cursor
      starts on the first page. */
  function FromItems<T>(items: seq<T>, size: int): (r: Result<Page<T>>)
    ensures r.Err? <==> items != [] && (size < 0 || size > MaxSize)
    ensures r.Err? ==> r.error == ValueError
    ensures r.Ok? ==> r.value.index == 0 && r.value.length == |r.value.pages| && r.value.perPage == size
    ensures items == [] ==> r.Ok? && r.value.pages == [[]]
    ensures items != [] && 1 <= size <= MaxSize ==> r.Ok? && Flatten(r.value.pages) == items && IsPaging(r.value.pages, size)
    ensures items != [] && size == 0 ==> r.Ok? && r.value.pages == []
    ensures 1 <= size <= MaxSize ==> r.Ok? && Wellformed(r.value)
  {
    if IsEmpty(items) then Ok(Page([[]], 0, 1, size))
    else if size < 0 || size > MaxSize then Err(ValueError)
    else
      var pages := Paginate(items, size);
      Ok(Page(pages, 0, |pages|, size))
  }

  /** `Page(None, None, context=c)`: the fields are copied from the context, and an
      index outside `0 .. length - 1` raises `IndexError`. */
  function FromContext<T>(c: Context<T>): (r: Result<Page<T>>)
    ensures r.Err? <==> c.index < 0 || c.length <= c.index
    ensures r.Err? ==> r.error == IndexError
    ensures r.Ok? ==> r.value == Page(c.pages, c.index, c.length, c.perPage)
  {
    if c.length <= c.index || c.index < 0 then Err(IndexError)
    else Ok(Page(c.pages, c.index, c.length, c.perPage))
  }

  /** `Page(iterable, size, context)`: exactly one of the two argument mixes is
      accepted, anything else raises `ValueError`. */
  function Init<T>(iterable: Option<seq<T>>, size: Option<int>, context: Option<Context<T>>): (r: Result<Page<T>>)
    ensures context.None? && iterable.Some? && size.Some? ==> r == FromItems(iterable.value, size.value)
    ensures context.Some? && iterable.None? && size.None? ==> r == FromContext(context.value)
    ensures r.Ok? ==> (context.None? <==> iterable.Some?) && (context.None? <==> size.Some?)
    ensures !(context.None? && iterable.Some? && size.Some?) && !(context.Some? && iterable.None? && size.None?)
      ==> r == Err(ValueError)
  {
    if context.None? && iterable.Some? && size.Some? then FromItems(iterable.value, size.value)
    else if context.Some? && iterable.None? && size.None? then FromContext(context.value)
    else Err(ValueError)
  }

  // ---------------------------------------------------------------------------
  // Queries

  /** `get_pageno()`: the one-based number of the current page. */
  function PageNo<T>(p: Page<T>): (n: int)
    ensures Wellformed(p) ==> 1 <= n <= p.length
    ensures n - 1 == p.index
  {
    p.index + 1
  }

  /** `get_items(index)`: the page at `index`, or at the cursor when no index is
      given, with Python's list indexing: a negative index counts from the end,
      and one outside the list raises `IndexError`. `page[key]` is the same call. */
  function GetItems<T>(p: Page<T>, index: Option<int>): (r: Result<seq<T>>)
    ensures var i := index.GetOr(p.index);
      && (r.Ok? <==> -|p.pages| <= i < |p.pages|)
      && (0 <= i < |p.pages| ==> r == Ok(p.pages[i]))
      && (-|p.pages| <= i < 0 ==> r == Ok(p.pages[|p.pages| + i]))
    ensures r.Err? ==> r.error == IndexError
    ensures Wellformed(p) && index.None? ==> r == Ok(p.pages[p.index])
  {
    var i := index.GetOr(p.index);
    if 0 <= i < |p.pages| then Ok(p.pages[i])
    else if -|p.pages| <= i < 0 then Ok(p.pages[|p.pages| + i])
    else Err(IndexError)
  }

  /** `has_next()`: on a wellformed page, whether the following index is a page. */
  function HasNext<T>(p: Page<T>): (b: bool)
    ensures Wellformed(p) ==> (b <==> Wellformed(p.(index := p.index + 1)))
  {
    p.index < p.length - 1
  }

  /** `has_prev()`: on a wellformed page, whether the preceding index is a page. */
  function HasPrev<T>(p: Page<T>): (b: bool)
    ensures Wellformed(p) ==> (b <==> Wellformed(p.(index := p.index - 1)))
  {
    p.index > 0
  }

  // ---------------------------------------------------------------------------
  // Navigation

  /** `get_next()`: a sibling one page further on, built through the context
      constructor; it raises `IndexError` exactly when there is no next page. */
  function GetNext<T>(p: Page<T>): (r: Result<Page<T>>)
    ensures p.index >= 0 ==> (r.Ok? <==> HasNext(p))
    ensures r.Err? ==> r.error == IndexError
    ensures r.Ok? ==> r.value == p.(index := p.index + 1)
    ensures r.Ok? && Wellformed(p) ==> Wellformed(r.value)
  {
    FromContext(Context(p.pages, p.index + 1, p.length, p.perPage))
  }

  /** `get_prev()`: a sibling one page back; it raises `IndexError` exactly when
      there is no previous page. */
  function GetPrev<T>(p: Page<T>): (r: Result<Page<T>>)
    ensures p.index <= p.length ==> (r.Ok? <==> HasPrev(p))
    ensures r.Err? ==> r.error == IndexError
    ensures r.Ok? ==> r.value == p.(index := p.index - 1)
    ensures r.Ok? && Wellformed(p) ==> Wellformed(r.value)
  {
    FromContext(Context(p.pages, p.index - 1, p.length, p.perPage))
  }

  /** Going forward and then back returns to the same page. */
  lemma NextThenPrev<T>(p: Page<T>)
    requires Wellformed(p) && HasNext(p)
    ensures GetNext(p).Ok? && GetPrev(GetNext(p).value) == Ok(p)
  {
  }

  /** Going back and then forward returns to the same page. */
  lemma PrevThenNext<T>(p: Page<T>)
    requires Wellformed(p) && HasPrev(p)
    ensures GetPrev(p).Ok? && GetNext(GetPrev(p).value) == Ok(p)
  {
  }

  /** `__next__()`: the next sibling, or the end of iteration where `get_next`
      raises `IndexError`. The receiver itself never moves. */
  function IterNext<T>(p: Page<T>): (r: Option<Page<T>>)
    ensures r.None? <==> GetNext(p).Err?
    ensures p.index >= 0 ==> (r.Some? <==> HasNext(p))
    ensures r.Some? ==> r.value == p.(index := p.index + 1)
  {
    match GetNext(p)
    case Ok(q) => Some(q)
    case Err(_) => None
  }

  /** The pages after `p`, reached by following `IterNext` from sibling to
      sibling until it reports the end. */
  function Remaining<T>(p: Page<T>): (r: seq<Page<T>>)
    ensures p.index >= 0 ==> |r| == if HasNext(p) then p.length - 1 - p.index else 0
    ensures forall i :: 0 <= i < |r| ==> r[i] == p.(index := p.index + 1 + i)
    decreases p.length - p.index
  {
    match IterNext(p)
    case None => []
    case Some(q) => [q] + Remaining(q)
  }

  /** Walking a wellformed page's siblings visits exactly the later pages, in order. */
  lemma RemainingPages<T>(p: Page<T>)
    requires Wellformed(p)
    ensures |Remaining(p)| == |p.pages| - 1 - p.index
    ensures forall i :: 0 <= i < |Remaining(p)| ==>
      Wellformed(Remaining(p)[i]) && GetItems(Remaining(p)[i], None) == Ok(p.pages[p.index + 1 + i])
  {
    var r := Remaining(p);
    assert |r| == |p.pages| - 1 - p.index;
    forall i | 0 <= i < |r|
      ensures Wellformed(r[i]) && GetItems(r[i], None) == Ok(p.pages[p.index + 1 + i])
    {
      var q := r[i];
      assert q == p.(index := p.index + 1 + i);
      assert Wellformed(q);
      assert GetItems(q, None) == Ok(q.pages[q.index]);
    }
  }

  /** What a Python `for` loop over `p` produces in its first `n` steps: `__iter__`
      returns `p` itself and `__next__` never advances it, so every step asks
      `p` again for its next sibling. */
  function ForLoopAsWritten<T>(p: Page<T>, n: nat): (r: seq<Page<T>>)
    ensures IterNext(p).None? ==> r == []
    ensures IterNext(p).Some? ==> |r| == n && forall i :: 0 <= i < n ==> r[i] == IterNext(p).value
  {
    if n == 0 then []
    else
      match IterNext(p)
      case None => []
      case Some(q) => [q] + ForLoopAsWritten(p, n - 1)
  }

  /** A `for` loop over a page that has a next page never ends: for every step
      count it yields that many values, all the same next page, while
      `Remaining` stops after the last page. */
  lemma ForLoopNeverEnds<T>(p: Page<T>, n: nat)
    requires Wellformed(p) && HasNext(p)
    ensures |ForLoopAsWritten(p, n)| == n
    ensures forall i :: 0 <= i < n ==> ForLoopAsWritten(p, n)[i].index == p.index + 1
    ensures |Remaining(p)| == p.length - 1 - p.index < p.length
  {
  }

  /** On the pages of 1..9 by 4, three steps of the `for` loop give page 2 three
      times, where the pages after page 1 are pages 2 and 3 only. */
  lemma ForLoopExample()
    ensures var p := FromItems([1, 2, 3, 4, 5, 6, 7, 8, 9], 4).value;
      && ForLoopAsWritten(p, 3) == [p.(index := 1), p.(index := 1), p.(index := 1)]
      && Remaining(p) == [p.(index := 1), p.(index := 2)]
  {
    var p := FromItems([1, 2, 3, 4, 5, 6, 7, 8, 9], 4).value;
    assert p.length == 3 by { PaginateCount([1, 2, 3, 4, 5, 6, 7, 8, 9], 4); }
    assert Remaining(p) == [p.(index := 1), p.(index := 2)];
  }

  // ---------------------------------------------------------------------------
  // __str__

  /** `str(page)`: "Page <number> of <count>". */
  function Str<T>(p: Page<T>): (s: string)
    ensures |s| > 5 && s[..5] == "Page "
  {
    Join(["Page", IntDecimal(PageNo(p)), "of", IntDecimal(p.length)], ' ')
  }

  /** Reads "Page <number> of <count>" back into its two numbers. */
  function ReadStr(s: string): Option<(int, int)> {
    var w := Split(s, ' ');
    if |w| == 4 && w[0] == "Page" && w[2] == "of" then
      match (ParseInt(w[1]), ParseInt(w[3]))
      case (Some(a), Some(b)) => Some((a, b))
      case _ => None
    else None
  }

  /** The text of a page names its page number and page count, recoverably. */
  lemma StrReadBack<T>(p: Page<T>)
    ensures Str(p)[..5] == "Page "
    ensures ReadStr(Str(p)) == Some((p.index + 1, p.length))
  {
    var words := ["Page", IntDecimal(PageNo(p)), "of", IntDecimal(p.length)];
    assert forall i :: 0 <= i < |words| ==> ' ' !in words[i];
    JoinSplit(words, ' ');
    ParseIntDecimal(PageNo(p));
    ParseIntDecimal(p.length);
  }

  // ---------------------------------------------------------------------------
  // The scenarios of stablogen/test_Page.py

  /** Nine items by four: pages 1..4, 5..8 and 9, walked forward and back. */
  lemma NinePagesExample()
    ensures var r := FromItems([1, 2, 3, 4, 5, 6, 7, 8, 9], 4);
      && r.Ok?
      && r.value.pages == [[1, 2, 3, 4], [5, 6, 7, 8], [9]]
      && PageNo(r.value) == 1 && !HasPrev(r.value) && HasNext(r.value)
      && GetPrev(r.value) == Err(IndexError)
      && GetItems(r.value, None) == Ok([1, 2, 3, 4])
      && GetNext(r.value).Ok? && GetItems(GetNext(r.value).value, None) == Ok([5, 6, 7, 8])
      && HasPrev(GetNext(r.value).value) && HasNext(GetNext(r.value).value)
      && PageNo(GetNext(r.value).value) == 2
      && GetNext(GetNext(r.value).value).Ok?
      && HasPrev(GetNext(GetNext(r.value).value).value)
      && !HasNext(GetNext(GetNext(r.value).value).value)
      && PageNo(GetNext(GetNext(r.value).value).value) == 3
      && GetItems(GetNext(GetNext(r.value).value).value, None) == Ok([9])
      && GetNext(GetNext(GetNext(r.value).value).value) == Err(IndexError)
      && GetPrev(GetNext(GetNext(r.value).value).value) == GetNext(r.value)
  {
    var items := [1, 2, 3, 4, 5, 6, 7, 8, 9];
    assert items[..4] == [1, 2, 3, 4];
    assert items[4..][..4] == [5, 6, 7, 8];
    assert items[4..][4..] == [9];
    assert Paginate([9], 4) == [[9]] by { assert [9][..1] == [9]; assert [9][1..] == []; }
    assert Paginate(items[4..], 4) == [[5, 6, 7, 8], [9]];
    PaginateCount(items, 4);
  }

  /** An empty list gives one empty page with nowhere to go. */
  lemma EmptyExample()
    ensures var r := FromItems<int>([], 1);
      && r.Ok? && r.value.length == 1 && PageNo(r.value) == 1
      && !HasNext(r.value) && !HasPrev(r.value)
      && GetItems(r.value, None) == Ok([])
  {
  }
}

=== FILE: posts.dfy ===
/** stablogen/Post.py: posts and tags, the tag inventory built from the tags of
    each post, the two listings the site is rendered from, and the text layout of
    a post file (metadata header, blank line, body). The inventories are passed
    in and returned instead of living in class attributes. */
module Posts {
  import opened Wrappers
  import opened Util
  import opened Dicts
  import opened Sequences

  /** A post is identified by its url, the key of the post inventory. */
  type PostId = string

  /** A point in time (an `arrow` object in the source); only its order matters. */
  type Timestamp = int

  /** A post; `when` is set once the post is finalized (published). */
  datatype Post = Post(
    title: string,
    url: PostId,
    content: string,
    tags: seq<string>,
    when: Option<Timestamp>,
    lastEdited: Option<Timestamp>,
    created: Option<Timestamp>,
    extension: string)

  /** `Post(title, content, tags, url, ...)`: the url is the given one, or else
      the slug of the title; every other field is stored as given. */
  function NewPost(title: string, content: string, tags: seq<string>, url: Option<string>,
                   when: Option<Timestamp>, lastEdited: Option<Timestamp>,
                   created: Option<Timestamp>, extension: string): (p: Post)
    ensures url.Some? ==> p.url == url.value
    ensures url.None? ==> p.url == MakeUrl(title, None)
    ensures url.None? ==> |p.url| == |title| && ' ' !in p.url
    ensures p.title == title && p.content == content && p.tags == tags
    ensures p.when == when && p.lastEdited == lastEdited && p.created == created && p.extension == extension
  {
    Post(title, MakeUrl(title, url), content, tags, when, lastEdited, created, extension)
  }

  /** A tag with the posts that carry it, in the order they were added. */
  datatype Tag = Tag(name: string, url: string, posts: seq<PostId>)

  // ---------------------------------------------------------------------------
  // Tag

  /** `Tag(name, posts)`: the url is the slug of the name. */
  function NewTag(name: string, posts: seq<PostId>): (t: Tag)
    ensures t.name == name && t.posts == posts
    ensures |t.url| == |name| && ' ' !in t.url
    ensures t.url == MakeUrl(name, None)
  {
    Tag(name, MakeUrl(name, None), posts)
  }

  /** `tag.add_post(post)`: appends the post unless it is already listed. */
  function AddPost(t: Tag, p: PostId): (r: Tag)
    ensures p in r.posts
    ensures r.name == t.name && r.url == t.url
    ensures p in t.posts ==> r == t
    ensures p !in t.posts ==> r.posts == t.posts + [p]
    ensures Distinct(t.posts) ==> Distinct(r.posts)
  {
    if p in t.posts then t else t.(posts := t.posts + [p])
  }

  /** Adding the same post twice is adding it once. */
  lemma AddPostIdempotent(t: Tag, p: PostId)
    ensures AddPost(AddPost(t, p), p) == AddPost(t, p)
  {
  }

  // ---------------------------------------------------------------------------
  // Post.apply_tags

  /** One step of `apply_tags`: add the post to a known tag, or register a new tag
      holding just this post. */
  function ApplyTag(name: string, p: PostId, inv: Dict<Tag>): (r: Dict<Tag>)
    ensures name in r.entries && p in r.entries[name].posts
    ensures name in inv.entries ==> r.entries[name] == AddPost(inv.entries[name], p)
    ensures name !in inv.entries ==> r.entries[name] == NewTag(name, [p])
    ensures r.entries.Keys == inv.entries.Keys + {name}
    ensures forall t :: t in inv.entries && t != name ==> r.entries[t] == inv.entries[t]
    ensures inv.keys <= r.keys
    ensures Valid(inv) ==> Valid(r)
  {
    if name in inv.entries then Set(inv, name, AddPost(inv.entries[name], p))
    else Set(inv, name, NewTag(name, [p]))
  }

  /** `apply_tags` over a list of tag names, in order. */
  function ApplyTagList(names: seq<string>, p: PostId, inv: Dict<Tag>): (r: Dict<Tag>)
    ensures r.entries.Keys == inv.entries.Keys + set t | t in names
    ensures inv.keys <= r.keys
    ensures Valid(inv) ==> Valid(r)
    decreases |names|
  {
    if |names| == 0 then inv
    else
      var step := ApplyTag(names[0], p, inv);
      var r := ApplyTagList(names[1..], p, step);
      assert (set t | t in names) == {names[0]} + set t | t in names[1..];
      r
  }

  /** What `apply_tags` over `names` leaves under one tag name `t`. */
  lemma {:induction false} ApplyTagListEntry(names: seq<string>, p: PostId, inv: Dict<Tag>, t: string)
    ensures var r := ApplyTagList(names, p, inv);
      && (t in names ==> t in r.entries && p in r.entries[t].posts)
      && (t in names && t in inv.entries ==> r.entries[t] == AddPost(inv.entries[t], p))
      && (t in names && t !in inv.entries ==> r.entries[t] == NewTag(t, [p]))
      && (t !in names ==> (t in r.entries <==> t in inv.entries))
      && (t !in names && t in inv.entries ==> r.entries[t] == inv.entries[t])
    decreases |names|
  {
    if |names| > 0 {
      var step := ApplyTag(names[0], p, inv);
      ApplyTagListEntry(names[1..], p, step, t);
      assert t in names <==> t == names[0] || t in names[1..];
      if t == names[0] && t in names[1..] {
        AddPostIdempotent(if t in inv.entries then inv.entries[t] else NewTag(t, []), p);
      }
    }
  }

  /** `post.apply_tags()`: every tag of the post lists the post afterwards; an
      unknown tag is created holding just this post; other tags are untouched. */
  function ApplyTags(post: Post, inv: Dict<Tag>): (r: Dict<Tag>)
    ensures forall t :: t in post.tags ==> t in r.entries && post.url in r.entries[t].posts
    ensures forall t :: t in post.tags && t !in inv.entries ==> r.entries[t] == NewTag(t, [post.url])
    ensures forall t :: t in post.tags && t in inv.entries ==> r.entries[t] == AddPost(inv.entries[t], post.url)
    ensures forall t :: t !in post.tags ==> (t in r.entries <==> t in inv.entries)
    ensures forall t :: t in inv.entries && t !in post.tags ==> r.entries[t] == inv.entries[t]
    ensures inv.keys <= r.keys
    ensures Valid(inv) ==> Valid(r)
  {
    ApplyTagsEntries(post, inv);
    ApplyTagList(post.tags, post.url, inv)
  }

  lemma ApplyTagsEntries(post: Post, inv: Dict<Tag>)
    ensures var r := ApplyTagList(post.tags, post.url, inv);
      && (forall t :: t in post.tags ==> t in r.entries && post.url in r.entries[t].posts)
      && (forall t :: t in post.tags && t !in inv.entries ==> r.entries[t] == NewTag(t, [post.url]))
      && (forall t :: t in post.tags && t in inv.entries ==> r.entries[t] == AddPost(inv.entries[t], post.url))
      && (forall t :: t !in post.tags ==> (t in r.entries <==> t in inv.entries))
      && (forall t :: t in inv.entries && t !in post.tags ==> r.entries[t] == inv.entries[t])
  {
    forall t {
      ApplyTagListEntry(post.tags, post.url, inv, t);
    }
  }

  /** Applying a post's tags a second time changes nothing. */
  lemma ApplyTagsIdempotent(post: Post, inv: Dict<Tag>)
    ensures ApplyTags(post, ApplyTags(post, inv)).entries == ApplyTags(post, inv).entries
  {
    var once := ApplyTags(post, inv);
    var twice := ApplyTags(post, once);
    forall t | t in twice.entries
      ensures t in once.entries && twice.entries[t] == once.entries[t]
    {
      if t in post.tags {
        assert post.url in once.entries[t].posts;
      }
    }
  }

  // ---------------------------------------------------------------------------
  // Post.get_finalized

  predicate IsFinal(p: Post) {
    p.when.Some?
  }

  predicate IsDraft(p: Post) {
    p.when.None?
  }

  /** The sort key of `get_finalized`, meaningful for finalized posts. */
  function WhenKey(p: Post): Timestamp {
    p.when.GetOr(0)
  }

  /** `get_finalized(final)` with the drafts branch as intended: finalized posts
      newest first, or the drafts in inventory order. */
  function GetFinalized(inv: Dict<Post>, final: bool): (r: Result<seq<Post>>)
    requires Valid(inv)
    ensures r.Ok?
    ensures final ==> forall p :: p in r.value <==> p in inv.entries.Values && IsFinal(p)
    ensures final ==> multiset(r.value) == multiset(Filter(Values(inv), IsFinal))
    ensures final ==> NonIncreasing(r.value, WhenKey)
    ensures !final ==> forall p :: p in r.value <==> p in inv.entries.Values && IsDraft(p)
  {
    ValuesMembers(inv);
    if final then
      var r := SortDesc(Filter(Values(inv), IsFinal), WhenKey);
      SameMembers(r, Filter(Values(inv), IsFinal));
      Ok(r)
    else Ok(Filter(Values(inv), IsDraft))
  }

  /** Finalized posts with the same timestamp keep their inventory order. */
  lemma GetFinalizedStable(inv: Dict<Post>, w: Timestamp)
    requires Valid(inv)
    ensures Filter(GetFinalized(inv, true).value, HasKey(WhenKey, w))
         == Filter(Filter(Values(inv), IsFinal), HasKey(WhenKey, w))
  {
    SortDescStable(Filter(Values(inv), IsFinal), WhenKey, w);
  }

  /** The drafts are listed each as often as they occur, and the listing is the
      source's `sorted(filter(...), key=when, reverse=True)` with every draft's
      missing key taken as equal: the drafts in inventory order. */
  lemma DraftsInOrder(inv: Dict<Post>, p: Post)
    requires Valid(inv)
    ensures multiset(GetFinalized(inv, false).value)[p] == if IsDraft(p) then multiset(Values(inv))[p] else 0
    ensures GetFinalized(inv, false).value == SortDesc(Filter(Values(inv), IsDraft), WhenKey)
  {
    FilterMultiset(Values(inv), IsDraft, p);
    var drafts := Filter(Values(inv), IsDraft);
    forall i | 0 <= i < |drafts|
      ensures WhenKey(drafts[i]) == 0
    {
      assert drafts[i] in drafts;
    }
    SortDescEqualKeys(drafts, WhenKey, 0);
  }

  /** `get_finalized(final)` as written: the drafts are sorted on their `when`,
      which is `None` for every draft, and comparing two `None` keys raises
      `TypeError`; the finalized branch is unaffected. */
  function GetFinalizedAsWritten(inv: Dict<Post>, final: bool): (r: Result<seq<Post>>)
    requires Valid(inv)
    ensures final ==> r == GetFinalized(inv, final)
    ensures !final ==> (r.Err? <==> |GetFinalized(inv, false).value| >= 2)
    ensures r.Ok? ==> r == GetFinalized(inv, final)
    ensures r.Err? ==> r.error == TypeError
  {
    if final then GetFinalized(inv, final)
    else
      var drafts := Filter(Values(inv), IsDraft);
      if |drafts| >= 2 then Err(TypeError) else Ok(drafts)
  }

  /** Two drafts are enough to make the drafts listing raise. */
  lemma TwoDraftsRaise()
    ensures var a := Post("a", "a", "", [], None, None, None, ".md");
      var b := Post("b", "b", "", [], None, None, None, ".md");
      var inv := Set(Set(Empty(), "a", a), "b", b);
      && Valid(inv)
      && GetFinalizedAsWritten(inv, false) == Err(TypeError)
      && GetFinalized(inv, false) == Ok([a, b])
  {
    var a := Post("a", "a", "", [], None, None, None, ".md");
    var b := Post("b", "b", "", [], None, None, None, ".md");
    TwoEntries("a", a, "b", b);
    assert Filter([a, b], IsDraft) == [a, b] by {
      FilterCons(a, [b], IsDraft);
      FilterCons(b, [], IsDraft);
      assert [a] + [b] == [a, b];
      assert [b] + [] == [b];
    }
  }

  // ---------------------------------------------------------------------------
  // Tag.get_most_tagged

  function PostCount(t: Tag): int {
    |t.posts|
  }

  /** `get_most_tagged()`: all tags, those on the most posts first. */
  function GetMostTagged(inv: Dict<Tag>): (r: seq<Tag>)
    requires Valid(inv)
    ensures multiset(r) == multiset(Values(inv))
    ensures forall t :: t in r <==> t in inv.entries.Values
    ensures NonIncreasing(r, PostCount)
  {
    var r := SortDesc(Values(inv), PostCount);
    ValuesMembers(inv);
    SameMembers(r, Values(inv));
    r
  }

  /** Tags on equally many posts keep their inventory order. */
  lemma GetMostTaggedStable(inv: Dict<Tag>, n: int)
    requires Valid(inv)
    ensures Filter(GetMostTagged(inv), HasKey(PostCount, n)) == Filter(Values(inv), HasKey(PostCount, n))
  {
    SortDescStable(Values(inv), PostCount, n);
  }

  // ---------------------------------------------------------------------------
  // The post file: header, blank line, body

  /** `post.save`: the dumped metadata, a newline, then the body. */
  function Frame(header: string, content: string): (text: string)
    ensures |text| == |header| + 1 + |content|
    ensures text[..|header|] == header && text[|header|] == '\n' && text[|header| + 1..] == content
  {
    header + "\n" + content
  }

  /** A whitespace-only line, which ends the header. */
  predicate IsBlank(line: string) {
    AllSpace(line)
  }

  /** The `takewhile` test `str.strip(line)` is falsy exactly on blank lines. */
  lemma IsBlankStrip(line: string)
    ensures IsBlank(line) <==> Strip(line) == ""
  {
  }

  /** `itertools.takewhile(str.strip, lines)`: how many leading lines are not blank. */
  function LeadingFilled(lines: seq<string>): (n: nat)
    ensures n <= |lines|
    ensures forall i :: 0 <= i < n ==> !IsBlank(lines[i])
    ensures n < |lines| ==> IsBlank(lines[n])
  {
    FilledFrom(lines, 0)
  }

  /** The scan of `takewhile` from line `k` on: the index of the first blank line. */
  function FilledFrom(lines: seq<string>, k: nat): (n: nat)
    requires k <= |lines|
    ensures k <= n <= |lines|
    ensures forall i :: k <= i < n ==> !IsBlank(lines[i])
    ensures n < |lines| ==> IsBlank(lines[n])
    decreases |lines| - k
  {
    if k == |lines| || IsBlank(lines[k]) then k else FilledFrom(lines, k + 1)
  }

  /** `Post.load` on the text of a file: the header is the lines before the first
      blank line; that line is consumed by `takewhile`, and the rest, joined
      again, is the body. */
  function Unframe(text: string): (r: (string, string))
    ensures r.0 == "" || forall line :: line in Split(r.0, '\n') ==> !IsBlank(line)
  {
    var lines := Split(text, '\n');
    var n := LeadingFilled(lines);
    HeaderFilled(lines);
    (Join(lines[..n], '\n'), Join(if n < |lines| then lines[n + 1..] else [], '\n'))
  }

  /** The header lines read back from their join, and none of them is blank. */
  lemma HeaderFilled(lines: seq<string>)
    requires forall i :: 0 <= i < |lines| ==> '\n' !in lines[i]
    ensures var header := Join(lines[..LeadingFilled(lines)], '\n');
      header == "" || forall line :: line in Split(header, '\n') ==> !IsBlank(line)
  {
    var n := LeadingFilled(lines);
    var header := lines[..n];
    if n > 0 {
      forall line | line in header
        ensures !IsBlank(line)
      {
        var i :| 0 <= i < n && header[i] == line;
      }
      JoinSplit(header, '\n');
    }
  }

  /** Loading gives back the header and the body that saving wrote, when the
      dumped header ends in a newline and has no blank line of its own. */
  lemma UnframeFrame(header: string, content: string)
    requires forall line :: line in Split(header, '\n') ==> !IsBlank(line)
    ensures Unframe(Frame(header + "\n", content)) == (header, content)
  {
    var h := Split(header, '\n');
    var c := Split(content, '\n');
    FramedLines(header, content);
    LeadingFilledStops(h, c);
    AroundMiddle(h, "", c);
    SplitJoin(header, '\n');
    SplitJoin(content, '\n');
  }

  lemma AroundMiddle<T>(h: seq<T>, x: T, c: seq<T>)
    ensures (h + [x] + c)[..|h|] == h
    ensures (h + [x] + c)[|h| + 1..] == c
  {
  }

  /** The lines of a saved file: the header's, one empty line, the body's. */
  lemma FramedLines(header: string, content: string)
    ensures Split(Frame(header + "\n", content), '\n') == Split(header, '\n') + [""] + Split(content, '\n')
  {
    Regroup(header, '\n', content);
    SplitConcat(header, ['\n'] + content, '\n');
    SplitCons('\n', content, '\n');
  }

  lemma Regroup<T>(h: seq<T>, x: T, c: seq<T>)
    ensures h + [x] + [x] + c == h + [x] + ([x] + c)
  {
  }

  lemma LeadingFilledStops(h: seq<string>, c: seq<string>)
    requires forall line :: line in h ==> !IsBlank(line)
    ensures LeadingFilled(h + [""] + c) == |h|
  {
    var lines := h + [""] + c;
    var n := LeadingFilled(lines);
    assert IsBlank("");
    assert lines[|h|] == "";
  }

  /** A body that starts with a blank line loses nothing either. */
  lemma UnframeBlankBody(header: string)
    requires forall line :: line in Split(header, '\n') ==> !IsBlank(line)
    ensures Unframe(Frame(header + "\n", "\n\nbody")).1 == "\n\nbody"
  {
    UnframeFrame(header, "\n\nbody");
  }
}

=== FILE: sequences.dfy ===
/** Python's `filter` and `sorted(..., key=key, reverse=True)` over sequences.
    Python's sort is stable also with `reverse=True`: items with equal keys keep
    their original relative order. */
module Sequences {

  /** `list(filter(keep, s))`. */
  function Filter<T(!new)>(s: seq<T>, keep: T -> bool): (r: seq<T>)
    ensures |r| <= |s|
    ensures forall x :: x in r <==> x in s && keep(x)
    decreases |s|
  {
    if |s| == 0 then []
    else
      assert s == [s[0]] + s[1..];
      (if keep(s[0]) then [s[0]] else []) + Filter(s[1..], keep)
  }

  /** Filtering keeps every occurrence of a kept item and drops every other one. */
  lemma {:induction false} FilterMultiset<T(!new)>(s: seq<T>, keep: T -> bool, x: T)
    ensures multiset(Filter(s, keep))[x] == if keep(x) then multiset(s)[x] else 0
    decreases |s|
  {
    if |s| > 0 {
      FilterMultiset(s[1..], keep, x);
      assert s == [s[0]] + s[1..];
    }
  }

  /** Keys never increase from left to right. */
  predicate NonIncreasing<T>(s: seq<T>, key: T -> int) {
    forall i, j :: 0 <= i < j < |s| ==> key(s[i]) >= key(s[j])
  }

  /** Puts `x` before the first item whose key is not larger than its own. */
  function Insert<T(!new)>(x: T, s: seq<T>, key: T -> int): (r: seq<T>)
    ensures multiset(r) == multiset(s) + multiset{x}
    decreases |s|
  {
    if |s| == 0 || key(x) >= key(s[0]) then [x] + s
    else
      assert s == [s[0]] + s[1..];
      [s[0]] + Insert(x, s[1..], key)
  }

  /** Inserting into a sorted sequence keeps it sorted. */
  lemma {:induction false} InsertSorted<T(!new)>(x: T, s: seq<T>, key: T -> int)
    requires NonIncreasing(s, key)
    ensures NonIncreasing(Insert(x, s, key), key)
    decreases |s|
  {
    if |s| > 0 && key(x) < key(s[0]) {
      var rest := Insert(x, s[1..], key);
      InsertSorted(x, s[1..], key);
      InsertBound(x, s[1..], key, key(s[0]));
      assert Insert(x, s, key) == [s[0]] + rest;
    }
  }

  /** A bound on the keys of `x` and of `s` bounds the keys after inserting. */
  lemma {:induction false} InsertBound<T(!new)>(x: T, s: seq<T>, key: T -> int, b: int)
    requires key(x) <= b
    requires forall i :: 0 <= i < |s| ==> key(s[i]) <= b
    ensures forall i :: 0 <= i < |Insert(x, s, key)| ==> key(Insert(x, s, key)[i]) <= b
    decreases |s|
  {
    if |s| > 0 && key(x) < key(s[0]) {
      InsertBound(x, s[1..], key, b);
    }
  }

  /** `sorted(s, key=key, reverse=True)`: insertion sort, largest key first. */
  function SortDesc<T(!new)>(s: seq<T>, key: T -> int): (r: seq<T>)
    ensures multiset(r) == multiset(s)
    ensures |r| == |s|
    ensures NonIncreasing(r, key)
    decreases |s|
  {
    if |s| == 0 then []
    else
      assert s == [s[0]] + s[1..];
      var sorted := SortDesc(s[1..], key);
      InsertSorted(s[0], sorted, key);
      Insert(s[0], sorted, key)
  }

  /** Two sequences with the same multiset have the same members. */
  lemma SameMembers<T>(a: seq<T>, b: seq<T>)
    requires multiset(a) == multiset(b)
    ensures forall x :: x in a <==> x in b
  {
    forall x
      ensures x in a <==> x in b
    {
      assert x in a <==> x in multiset(a);
      assert x in b <==> x in multiset(b);
    }
  }

  /** The items whose key is `k`. */
  function HasKey<T>(key: T -> int, k: int): T -> bool {
    y => key(y) == k
  }

  lemma FilterCons<T(!new)>(a: T, t: seq<T>, keep: T -> bool)
    ensures Filter([a] + t, keep) == (if keep(a) then [a] else []) + Filter(t, keep)
  {
    assert ([a] + t)[0] == a;
    assert ([a] + t)[1..] == t;
  }

  /** Filtering with a test every item passes changes nothing. */
  lemma {:induction false} FilterAll<T(!new)>(s: seq<T>, keep: T -> bool)
    requires forall i :: 0 <= i < |s| ==> keep(s[i])
    ensures Filter(s, keep) == s
    decreases |s|
  {
    if |s| > 0 {
      FilterAll(s[1..], keep);
      assert s == [s[0]] + s[1..];
    }
  }

  /** When every key is the same, sorting returns the input unchanged. */
  lemma SortDescEqualKeys<T(!new)>(s: seq<T>, key: T -> int, k: int)
    requires forall i :: 0 <= i < |s| ==> key(s[i]) == k
    ensures SortDesc(s, key) == s
  {
    var r := SortDesc(s, key);
    SortDescStable(s, key, k);
    FilterAll(s, HasKey(key, k));
    forall i | 0 <= i < |r|
      ensures HasKey(key, k)(r[i])
    {
      assert r[i] in multiset(s);
    }
    FilterAll(r, HasKey(key, k));
  }

  /** Inserting `x` does not reorder `x` among the items with its key. */
  lemma {:induction false} InsertStable<T(!new)>(x: T, s: seq<T>, key: T -> int, k: int)
    ensures Filter(Insert(x, s, key), HasKey(key, k)) == Filter([x] + s, HasKey(key, k))
    decreases |s|
  {
    if |s| > 0 && key(x) < key(s[0]) {
      var keep := HasKey(key, k);
      InsertStable(x, s[1..], key, k);
      InsertPassesHead(x, s, key, keep);
      FilterCons(x, s[1..], keep);
      FilterCons(s[0], s[1..], keep);
      assert [s[0]] + s[1..] == s;
      FilterCons(x, s, keep);
      // at most one of x and s[0] has key k, since key(x) < key(s[0])
      SwapEmpty(if keep(s[0]) then [s[0]] else [], if keep(x) then [x] else [], Filter(s[1..], keep));
    }
  }

  lemma InsertPassesHead<T(!new)>(x: T, s: seq<T>, key: T -> int, keep: T -> bool)
    requires |s| > 0 && key(x) < key(s[0])
    ensures Filter(Insert(x, s, key), keep)
         == (if keep(s[0]) then [s[0]] else []) + Filter(Insert(x, s[1..], key), keep)
  {
    FilterCons(s[0], Insert(x, s[1..], key), keep);
  }

  lemma SwapEmpty<T>(a: seq<T>, b: seq<T>, tail: seq<T>)
    requires a == [] || b == []
    ensures a + (b + tail) == b + (a + tail)
  {
  }

  /** The sort is stable: for every key, the items with that key appear in the
      result in the same order as in the input. */
  lemma {:induction false} SortDescStable<T(!new)>(s: seq<T>, key: T -> int, k: int)
    ensures Filter(SortDesc(s, key), HasKey(key, k)) == Filter(s, HasKey(key, k))
    decreases |s|
  {
    if |s| > 0 {
      var keep := HasKey(key, k);
      var sorted := SortDesc(s[1..], key);
      assert SortDesc(s, key) == Insert(s[0], sorted, key);
      SortDescStable(s[1..], key, k);
      InsertStable(s[0], sorted, key, k);
      FilterCons(s[0], sorted, keep);
      FilterCons(s[0], s[1..], keep);
      assert [s[0]] + s[1..] == s;
    }
  }
}

=== FILE: util.dfy ===
/** The pure helpers of stablogen/util.py: url slugs, comma lists, emptiness of a
    finite sequence and mapping over an optional value. The string functions
    `Split`, `Join` and `Strip` stand for Python's `str.split`, `str.join` and
    `str.strip`, on which these helpers and the post file framing rely. */
module Util {
  import opened Wrappers

  // ---------------------------------------------------------------------------
  // if_none_else_do

  /** `if_none_else_do(val, func)`: `None` stays `None`, a value goes through `f`. */
  function IfNoneElseDo<A, B>(val: Option<A>, f: A -> B): (r: Option<B>)
    ensures r.None? <==> val.None?
    ensures val.Some? ==> r.value == f(val.value)
  {
    if val.None? then None else Some(f(val.value))
  }

  /** Mapping the identity changes nothing. */
  lemma IfNoneElseDoIdentity<A>(val: Option<A>)
    ensures IfNoneElseDo(val, (x: A) => x) == val
  {
  }

  /** Mapping twice is mapping the composition once. */
  lemma IfNoneElseDoCompose<A, B, C>(val: Option<A>, f: A -> B, g: B -> C)
    ensures IfNoneElseDo(IfNoneElseDo(val, f), g) == IfNoneElseDo(val, (x: A) => g(f(x)))
  {
  }

  // ---------------------------------------------------------------------------
  // make_url (ASCII case mapping)

  predicate IsUpper(c: char) {
    'A' <= c <= 'Z'
  }

  function LowerChar(c: char): char {
    if IsUpper(c) then (c as int + 32) as char else c
  }

  /** `str.lower`, on the ASCII letters. */
  function Lower(s: string): string {
    seq(|s|, i requires 0 <= i < |s| => LowerChar(s[i]))
  }

  /** `str.replace(from, to)` for one character by one character. */
  function ReplaceChar(s: string, from: char, to: char): string {
    seq(|s|, i requires 0 <= i < |s| => if s[i] == from then to else s[i])
  }

  /** `make_url(title, url)`: a given url is kept as it is; otherwise the title is
      lower-cased and its spaces become underscores, one character for one. */
  function MakeUrl(title: string, url: Option<string>): (r: string)
    ensures url.Some? ==> r == url.value
    ensures url.None? ==> |r| == |title|
    ensures url.None? ==> ' ' !in r && forall i :: 0 <= i < |r| ==> !IsUpper(r[i])
    ensures url.None? ==> forall i :: 0 <= i < |title| ==>
      r[i] == (if title[i] == ' ' then '_' else LowerChar(title[i]))
  {
    if url.None? then ReplaceChar(Lower(title), ' ', '_') else url.value
  }

  /** A slug is its own slug. */
  lemma MakeUrlIdempotent(title: string)
    ensures MakeUrl(MakeUrl(title, None), None) == MakeUrl(title, None)
  {
    var u := MakeUrl(title, None);
    var v := MakeUrl(u, None);
    assert forall i :: 0 <= i < |u| ==> v[i] == u[i];
  }

  /** A title is left unchanged exactly when it has no space and no upper-case letter. */
  lemma MakeUrlFixedPoint(title: string)
    ensures MakeUrl(title, None) == title <==>
      ' ' !in title && forall i :: 0 <= i < |title| ==> !IsUpper(title[i])
  {
    var u := MakeUrl(title, None);
    if ' ' !in title && forall i :: 0 <= i < |title| ==> !IsUpper(title[i]) {
      assert forall i :: 0 <= i < |title| ==> u[i] == title[i];
    }
  }

  // ---------------------------------------------------------------------------
  // str.strip

  /** The characters Python's `str.strip()` removes by default (`str.isspace`). */
  predicate IsSpace(c: char) {
    || ('\t' <= c <= '\r')
    || ('\U{1C}' <= c <= ' ')
    || c == '\U{85}' || c == '\U{A0}' || c == '\U{1680}'
    || ('\U{2000}' <= c <= '\U{200A}')
    || c == '\U{2028}' || c == '\U{2029}' || c == '\U{202F}' || c == '\U{205F}' || c == '\U{3000}'
  }

  predicate AllSpace(s: string) {
    forall i :: 0 <= i < |s| ==> IsSpace(s[i])
  }

  /** `str.lstrip()`: the longest suffix that does not start with whitespace. */
  function StripLeft(s: string): (r: string)
    ensures |r| <= |s| && r == s[|s| - |r|..]
    ensures AllSpace(s[..|s| - |r|])
    ensures |r| > 0 ==> !IsSpace(r[0])
    decreases |s|
  {
    if |s| > 0 && IsSpace(s[0]) then StripLeft(s[1..]) else s
  }

  /** `str.rstrip()`: the longest prefix that does not end with whitespace. */
  function StripRight(s: string): (r: string)
    ensures |r| <= |s| && r == s[..|r|]
    ensures AllSpace(s[|r|..])
    ensures |r| > 0 ==> !IsSpace(r[|r| - 1])
    decreases |s|
  {
    if |s| > 0 && IsSpace(s[|s| - 1]) then StripRight(s[..|s| - 1]) else s
  }

  /** `str.strip()`: leading and trailing whitespace removed. */
  function Strip(s: string): (r: string)
    ensures |r| <= |s|
    ensures |r| > 0 ==> !IsSpace(r[0]) && !IsSpace(r[|r| - 1])
    ensures r == [] <==> AllSpace(s)
  {
    var l := StripLeft(s);
    var r := StripRight(l);
    StripEdges(s, l, r);
    r
  }

  lemma StripEdges(s: string, l: string, r: string)
    requires l == StripLeft(s) && r == StripRight(l)
    ensures |r| > 0 ==> !IsSpace(r[0])
    ensures r == [] <==> AllSpace(s)
  {
    if |r| > 0 {
      assert r[0] == l[0];
    }
    if r == [] {
      AllSpaceConcat(s[..|s| - |l|], l);
      assert s == s[..|s| - |l|] + l;
    }
  }

  lemma AllSpaceConcat(a: string, b: string)
    ensures AllSpace(a + b) <==> AllSpace(a) && AllSpace(b)
  {
    if AllSpace(a) && AllSpace(b) {
      forall i | 0 <= i < |a + b|
        ensures IsSpace((a + b)[i])
      {
        if i < |a| { assert (a + b)[i] == a[i]; } else { assert (a + b)[i] == b[i - |a|]; }
      }
    }
    if AllSpace(a + b) {
      forall i | 0 <= i < |b|
        ensures IsSpace(b[i])
      {
        assert (a + b)[|a| + i] == b[i];
      }
      forall i | 0 <= i < |a|
        ensures IsSpace(a[i])
      {
        assert (a + b)[i] == a[i];
      }
    }
  }

  /** What `Strip` removed is whitespace on both sides of what it kept. */
  lemma StripSplit(s: string) returns (front: string, back: string)
    ensures s == front + Strip(s) + back
    ensures AllSpace(front) && AllSpace(back)
  {
    var l := StripLeft(s);
    var r := StripRight(l);
    front, back := s[..|s| - |l|], l[|r|..];
    Sandwich(s, l, r);
  }

  /** Stripping only removes characters: a character absent before is absent after. */
  lemma StripKeeps(s: string, c: char)
    requires c !in s
    ensures c !in Strip(s)
  {
    var front, back := StripSplit(s);
    var r := Strip(s);
    assert forall i :: 0 <= i < |r| ==> r[i] == s[|front| + i];
  }

  /** A suffix `l` of `s` and a prefix `r` of `l` cut `s` into three parts. */
  lemma Sandwich<T>(s: seq<T>, l: seq<T>, r: seq<T>)
    requires |l| <= |s| && l == s[|s| - |l|..]
    requires |r| <= |l| && r == l[..|r|]
    ensures s == s[..|s| - |l|] + r + l[|r|..]
  {
    assert l == r + l[|r|..];
    assert s == s[..|s| - |l|] + l;
  }

  /** Whitespace around a word without edge whitespace is exactly what `Strip` removes. */
  lemma StripPadded(front: string, w: string, back: string)
    requires AllSpace(front) && AllSpace(back)
    requires |w| > 0 ==> !IsSpace(w[0]) && !IsSpace(w[|w| - 1])
    ensures Strip(front + w + back) == w
  {
    var s := front + w + back;
    if |w| == 0 {
      assert s == front + back;
      AllSpaceConcat(front, back);
    } else {
      StripLeftPadded(front, w + back);
      assert s == front + (w + back);
      StripRightPadded(w, back);
    }
  }

  lemma {:induction false} StripLeftPadded(front: string, t: string)
    requires AllSpace(front)
    requires |t| > 0 && !IsSpace(t[0])
    ensures StripLeft(front + t) == t
    decreases |front|
  {
    if |front| > 0 {
      assert (front + t)[1..] == front[1..] + t;
      StripLeftPadded(front[1..], t);
    } else {
      assert front + t == t;
    }
  }

  lemma {:induction false} StripRightPadded(t: string, back: string)
    requires AllSpace(back)
    requires |t| > 0 && !IsSpace(t[|t| - 1])
    ensures StripRight(t + back) == t
    decreases |back|
  {
    if |back| > 0 {
      assert (t + back)[..|t + back| - 1] == t + back[..|back| - 1];
      StripRightPadded(t, back[..|back| - 1]);
    } else {
      assert t + back == t;
    }
  }

  /** Stripping twice is stripping once. */
  lemma StripIdempotent(s: string)
    ensures Strip(Strip(s)) == Strip(s)
  {
    StripPadded([], Strip(s), []);
    assert [] + Strip(s) + [] == Strip(s);
  }

  // ---------------------------------------------------------------------------
  // str.split / str.join with a one-character separator

  function Count(s: string, c: char): (n: nat)
    ensures n <= |s|
    ensures n == 0 <==> c !in s
    decreases |s|
  {
    if |s| == 0 then 0 else (if s[0] == c then 1 else 0) + Count(s[1..], c)
  }

  /** `s.split(sep)`: the pieces between separators, one more piece than separators. */
  function Split(s: string, sep: char): (r: seq<string>)
    ensures |r| == Count(s, sep) + 1
    ensures forall i :: 0 <= i < |r| ==> sep !in r[i]
    decreases |s|
  {
    if |s| == 0 then [""]
    else if s[0] == sep then [""] + Split(s[1..], sep)
    else
      var rest := Split(s[1..], sep);
      [[s[0]] + rest[0]] + rest[1..]
  }

  /** `sep.join(parts)`: the first part, then each further part after a separator. */
  function Join(parts: seq<string>, sep: char): (r: string)
    ensures |parts| >= 1 ==> |parts[0]| <= |r| && r[..|parts[0]|] == parts[0]
    decreases |parts|
  {
    if |parts| == 0 then ""
    else if |parts| == 1 then parts[0]
    else parts[0] + [sep] + Join(parts[1..], sep)
  }

  /** Joining the pieces of a split gives the original string back. */
  lemma {:induction false} SplitJoin(s: string, sep: char)
    ensures Join(Split(s, sep), sep) == s
    decreases |s|
  {
    if |s| > 0 {
      assert s == [s[0]] + s[1..];
      SplitJoin(s[1..], sep);
      SplitJoinStep(s[0], s[1..], sep);
    }
  }

  /** One character in front: the join of the split still restores the string. */
  lemma SplitJoinStep(c: char, t: string, sep: char)
    requires Join(Split(t, sep), sep) == t
    ensures Join(Split([c] + t, sep), sep) == [c] + t
  {
    SplitCons(c, t, sep);
    var rest := Split(t, sep);
    if c == sep {
      JoinCons("", rest, sep);
    } else {
      JoinExtendFirst(c, rest, sep);
    }
  }

  lemma JoinCons(a: string, rest: seq<string>, sep: char)
    requires |rest| >= 1
    ensures Join([a] + rest, sep) == a + [sep] + Join(rest, sep)
  {
    assert ([a] + rest)[1..] == rest;
  }

  /** Putting `c` in front of the first part puts it in front of the join. */
  lemma JoinExtendFirst(c: char, rest: seq<string>, sep: char)
    requires |rest| >= 1
    ensures Join([[c] + rest[0]] + rest[1..], sep) == [c] + Join(rest, sep)
  {
    if |rest| > 1 {
      JoinCons([c] + rest[0], rest[1..], sep);
      assert rest == [rest[0]] + rest[1..];
      JoinCons(rest[0], rest[1..], sep);
    }
  }

  /** A string without the separator is a single piece. */
  lemma SplitNoSep(s: string, sep: char)
    requires sep !in s
    ensures Split(s, sep) == [s]
  {
    assert Count(s, sep) == 0;
    var r := Split(s, sep);
    SplitJoin(s, sep);
  }

  /** Splitting at one separator splits the two sides independently. */
  lemma {:induction false} SplitConcat(a: string, b: string, sep: char)
    ensures Split(a + [sep] + b, sep) == Split(a, sep) + Split(b, sep)
    decreases |a|
  {
    if |a| == 0 {
      assert a + [sep] + b == [sep] + b;
      SplitCons(sep, b, sep);
    } else {
      SplitConcat(a[1..], b, sep);
      SplitConcatStep(a[0], a[1..], b, sep);
      assert a == [a[0]] + a[1..];
    }
  }

  lemma SplitConcatStep(c: char, a: string, b: string, sep: char)
    requires Split(a + [sep] + b, sep) == Split(a, sep) + Split(b, sep)
    ensures Split([c] + a + [sep] + b, sep) == Split([c] + a, sep) + Split(b, sep)
  {
    var t := a + [sep] + b;
    ConsAssoc(c, a, sep, b);
    SplitCons(c, t, sep);
    SplitCons(c, a, sep);
    if c == sep {
      PrependAssoc([""], Split(a, sep), Split(b, sep));
    } else {
      ExtendFirst([c], Split(t, sep), Split(a, sep), Split(b, sep));
    }
  }

  lemma ConsAssoc<T>(c: T, a: seq<T>, sep: T, b: seq<T>)
    ensures [c] + a + [sep] + b == [c] + (a + [sep] + b)
  {
  }

  lemma PrependAssoc<T>(x: seq<T>, ra: seq<T>, sb: seq<T>)
    ensures x + (ra + sb) == (x + ra) + sb
  {
  }

  lemma ExtendFirst(x: string, st: seq<string>, ra: seq<string>, sb: seq<string>)
    requires st == ra + sb && |ra| >= 1
    ensures [x + st[0]] + st[1..] == [x + ra[0]] + ra[1..] + sb
  {
    assert st[1..] == ra[1..] + sb;
  }

  /** One step of `Split`: the first character either ends the first piece or joins it. */
  lemma SplitCons(c: char, t: string, sep: char)
    ensures Split([c] + t, sep) == if c == sep then [""] + Split(t, sep)
      else [[c] + Split(t, sep)[0]] + Split(t, sep)[1..]
  {
    assert ([c] + t)[0] == c;
    assert ([c] + t)[1..] == t;
  }

  /** Splitting the join of separator-free pieces gives the pieces back. */
  lemma {:induction false} JoinSplit(parts: seq<string>, sep: char)
    requires |parts| >= 1
    requires forall i :: 0 <= i < |parts| ==> sep !in parts[i]
    ensures Split(Join(parts, sep), sep) == parts
    decreases |parts|
  {
    if |parts| == 1 {
      SplitNoSep(parts[0], sep);
    } else {
      JoinSplit(parts[1..], sep);
      SplitConcat(parts[0], Join(parts[1..], sep), sep);
      SplitNoSep(parts[0], sep);
      assert parts == [parts[0]] + parts[1..];
    }
  }

  // ---------------------------------------------------------------------------
  // to_list

  /** Every piece stripped, in place. */
  function StripAll(parts: seq<string>): (r: seq<string>)
    ensures |r| == |parts|
    ensures forall i :: 0 <= i < |r| ==> r[i] == Strip(parts[i])
  {
    seq(|parts|, i requires 0 <= i < |parts| => Strip(parts[i]))
  }

  /** `to_list(val)`: the comma-separated pieces of `val`, each stripped. */
  function ToList(val: string): (r: seq<string>)
    ensures |r| == Count(val, ',') + 1
    ensures forall i :: 0 <= i < |r| ==> ',' !in r[i]
    ensures forall i :: 0 <= i < |r| ==> |r[i]| > 0 ==> !IsSpace(r[i][0]) && !IsSpace(r[i][|r[i]| - 1])
    ensures forall i :: 0 <= i < |r| ==> r[i] == Strip(Split(val, ',')[i])
  {
    var parts := Split(val, ',');
    StripAllItems(parts, ',');
    StripAll(parts)
  }

  /** Stripped pieces keep out what the pieces kept out, and have no edge whitespace. */
  lemma StripAllItems(parts: seq<string>, c: char)
    requires forall i :: 0 <= i < |parts| ==> c !in parts[i]
    ensures var r := StripAll(parts);
      forall i :: 0 <= i < |r| ==> c !in r[i] && (|r[i]| > 0 ==> !IsSpace(r[i][0]) && !IsSpace(r[i][|r[i]| - 1]))
  {
    var r := StripAll(parts);
    forall i | 0 <= i < |r|
      ensures c !in r[i] && (|r[i]| > 0 ==> !IsSpace(r[i][0]) && !IsSpace(r[i][|r[i]| - 1]))
    {
      StripKeeps(parts[i], c);
    }
  }

  /** The empty string is one empty item, never an empty list. */
  lemma ToListEmpty()
    ensures ToList("") == [""]
  {
  }

  /** Comma-joined items come back as the items, stripped. */
  lemma ToListJoin(items: seq<string>)
    requires |items| >= 1
    requires forall i :: 0 <= i < |items| ==> ',' !in items[i]
    ensures |ToList(Join(items, ','))| == |items|
    ensures forall i :: 0 <= i < |items| ==> ToList(Join(items, ','))[i] == Strip(items[i])
  {
    JoinSplit(items, ',');
  }

  // ---------------------------------------------------------------------------
  // is_empty (sequence branch)

  /** `is_empty(obj)` for an object with a length and no `__next__`. */
  function IsEmpty<T>(s: seq<T>): (r: bool)
    ensures r <==> s == []
  {
    |s| == 0
  }
}

=== FILE: wrappers.dfy ===
/** Failure-carrying values shared by the other modules. */
module Wrappers {

  /** Python's `None` or a present value. */
  datatype Option<+T> = None | Some(value: T) {

    /** The value, or `default` when there is none. */
    function GetOr(default: T): T {
      match this
      case Some(v) => v
      case None => default
    }
  }

  /** The exceptions the modelled code raises, by their Python names. */
  datatype Error = IndexError | ValueError | TypeError

  /** A returned value or a raised exception. */
  datatype Result<+T> = Ok(value: T) | Err(error: Error)
}
